=== FILE: README.md ===
# Barrow sea-ice radar layer selection, modelled in Dafny

`barrow.py` is a periodic batch job. It reads a feed of sea-ice radar
GeoTIFFs for Barrow (newest first), picks up to three captures spaced 30
minutes apart, stamps each with its capture time and writes them as layers
1..3. A layer gets a "No data for ..." placeholder when the scan reaches a
capture older than its window before finding a match; layers still open when
the feed runs out get no image.

This project models the part of the script with real logic:

- the configuration constants (`maxLayers = 3`, `layerInterval = 30 min`,
  `offsetFromNow = 2 weeks`, `acceptableRange = 3 min`);
- the timestamp helpers `dateObject` and `formatDate`;
- the slot-matching loop, from the freshness check to the last `sys.exit()`.

Each render call becomes an emitted event:

- `Matched(position, source, date)` stands for download + `stampGeoTiff`;
- `Placeholder(position, expectedDate)` stands for `createNoDataImage`.

How the run ends is an `Outcome`:

- `Stale` — the newest capture is too old;
- `AllSlotsFilled` / `CutoffReached` — the two `sys.exit()` calls inside the loop;
- `FeedExhausted` — the loop ran out of records;
- `Failed(fault)` — an exception was raised.

Times are whole seconds since 0001-01-01T00:00:00. That is the range of
Python's `datetime`, and the model includes the proleptic Gregorian calendar
needed to convert to and from it. `datetime.now()` is a parameter, in
microseconds, because it carries a fractional second.

Modules:

- `Wrappers` (wrappers.dfy): `Option` and `Result`.
- `Calendar` (calendar.dfy): day numbers (`toordinal`/`fromordinal`) and
  seconds, with both round trips. Also proves that comparing seconds is the
  same as comparing `datetime`s field by field.
- `Timestamp` (timestamp.dfy): `DateObject` (`dateObject`) and `FormatDate`
  (`formatDate`), with round trips between the two.
- `Config` (config.dfy): the four constants of lines 21-30.
- `SlotMatcher` (matcher.dfy): one loop iteration (`Step`), folded over the
  feed (`Scan`), behind the freshness check (`RunSamples`, `Run`).
- `MatcherProofs` (matcher_proofs.dfy): the loop invariant and the run's
  properties. It also has worked feeds.
- `MatchLoop` (match_loop.dfy): the same run as an imperative loop over
  `targetPosition` and `success`, proved equal to the fold.

Behaviour of the code that the model keeps on purpose:

- The guard `targetPosition not in success` on line 165 is always true
  (`GuardAlwaysHolds`).
- The cutoff exit on lines 175-176 can never fire. Every window lies after
  `lastDate` because 3 min < 30 min (`CutoffNeverReached`). Apart from the
  freshness check (lines 131-133) and a raised exception, a run therefore
  ends only when all three positions are handled or the feed runs out. In the
  second case the remaining positions get no image at all
  (`ShortFeedLeavesSlotEmpty`).
- Line 165 uses a strict `<`. A capture exactly at a window's low end is
  neither matched nor given a placeholder; it is skipped (`StepClassification`).
- A capture that triggers a placeholder is consumed. It is never tried
  against the next position, even when it lies inside that position's window.
- One might expect the feed [T0, T0−61 min, T0−90 min] to fill position 3
  with its third capture. It does not:
  - the third capture lies outside position 3's window (T0−63 min, T0−57 min);
  - the second capture lies inside it, but position 2's placeholder already
    consumed it.

  The run gives match, placeholder, placeholder (`PlaceholderConsumesRecord`).
- The script is Python 2, so `strftime` raises for years before 1900.
  `datetime` arithmetic raises outside years 1..9999. Both are modelled as
  `Failed` outcomes that keep the events emitted so far. `Step` tests
  whether a caption's date can be printed on seconds (`Printable`) instead of
  printing it; `Timestamp.FormattableSeconds` proves the test agrees with
  `FormatDate`, and the failure carries `FormatDate`'s own error.
- `sys.exit()` on line 144 runs before the next record is parsed. A malformed
  record after the third position is handled does not fail the run
  (`EvenlySpacedFeed`).

## Model

| member | source | states |
|---|---|---|
| Calendar.ToOrdinal | barrow.py:42 | `datetime`'s day number of a valid date: 1..3652059, falling inside the date's own year (after the days of all earlier years, at most those plus this year's days); the inverse is `Calendar.FromOrdinal` |
| Calendar.FromOrdinal | barrow.py:131-152 | the day number of the date it returns is the day number it was given, and that date is valid |
| Calendar.OrdinalRoundTrip | barrow.py:42 | numbering a valid date and converting the number back gives the same year, month and day |
| Calendar.ToSeconds | barrow.py:150-154 | a valid `datetime` as a count of seconds within `datetime`'s range, on which the script's `timedelta` arithmetic and comparisons are made; the inverse is `Calendar.FromSeconds`, the agreement with comparisons `Calendar.SecondsOrder` |
| Calendar.FromSeconds | barrow.py:131-152 | every second in `datetime`'s range is a valid `datetime` that converts back to the same second |
| Calendar.SecondsRoundTrip | barrow.py:131-152 | converting a valid `datetime` to seconds and back gives the same `datetime` |
| Calendar.SecondsOrder | barrow.py:131-154 | `datetime` comparison, field by field, holds exactly when the seconds compare the same way, so the script's date comparisons can be made on seconds |
| Timestamp.StripOffset | barrow.py:41 | the regular expression: when it finds a match, the raw text is that match followed by `-08:00` or `-09:00`, and the match holds no line break; otherwise no match |
| Timestamp.Strptime | barrow.py:42 | when `strptime` succeeds, the text has the full `YYYY-MM-DDTHH:MM:SS` shape and the `datetime` is valid; `Timestamp.StampOfParse` and `Timestamp.ParseStamp` tie its fields to the text |
| Timestamp.DateObject | barrow.py:38-42 | a successful parse gives a valid `datetime`, from a string of exactly 19 characters followed by `-08:00` or `-09:00` |
| Timestamp.MissingOffsetFails | barrow.py:41-42 | a string that does not end in `-08:00` or `-09:00` makes `dateObject` raise |
| Timestamp.OffsetDiscarded | barrow.py:39-41 | the offset is dropped, not applied: the same text with `-08:00` or `-09:00` parses to the same `datetime` |
| Timestamp.FormatDate | barrow.py:44-45 | printing fails exactly for years before 1900; otherwise the text has 19 characters with a space between date and time |
| Timestamp.StampOfParse | barrow.py:38-42 | for every year, an accepted timestamp's parsed fields, written out again with the text's own separator, are exactly the 19 characters before the offset |
| Timestamp.ParseStamp | barrow.py:38-42 | for every year, a valid `datetime` written as `YYYY-MM-DDTHH:MM:SS` (with `T` or `t`) followed by either offset parses to itself |
| Timestamp.ParseThenFormat | barrow.py:38-45 | an accepted timestamp (year 1900 or later) prints as its own first 19 characters with `T` replaced by a space |
| Timestamp.FormatThenParse | barrow.py:38-45 | a printed `datetime`, with `T` put back and either offset appended, parses to the same `datetime` |
| Timestamp.FormattableSeconds | barrow.py:44-45 | a time can be printed exactly when it is at or after 1900-01-01T00:00:00 |
| SlotMatcher.CaptureTime | barrow.py:147 | a record has a capture time exactly when `dateObject` accepts its `event_at`, and that time is within `datetime`'s range |
| SlotMatcher.CaptureTimeIsParsedDate | barrow.py:147 | the capture time denotes exactly the `datetime` that `dateObject` returns |
| SlotMatcher.ToSamples | barrow.py:146-147 | record i of the feed becomes sample i, with its source and its parsed `event_at` |
| SlotMatcher.Step | barrow.py:143-176 | one loop iteration; no `ensures` of its own: `MatcherProofs.StepClassification` states which record is matched, gives a placeholder or is skipped, and `MatcherProofs.StepPreserves` and `MatcherProofs.GuardAlwaysHolds` state the invariant it keeps |
| SlotMatcher.Scan | barrow.py:142-176 | the loop over the remaining records; no `ensures` of its own: `MatcherProofs.ScanWellFormed` states what it appends and how it ends |
| SlotMatcher.RunSamples | barrow.py:129-176 | the run from `firstDate` on; no `ensures` of its own: `MatcherProofs.RunWellFormed`, `MatcherProofs.StaleExactly` and `MatcherProofs.FirstRecordMatches` state its properties, and `MatchLoop.RunParsed` computes it |
| SlotMatcher.Run | barrow.py:129-176 | the run on the raw feed; no `ensures` of its own: `MatcherProofs.CutoffNeverReached` and `MatchLoop.RunFeed` state its properties |
| MatcherProofs.GuardAlwaysHolds | barrow.py:139-165 | while positions remain, the current position is never a key of `success`, so the guard `targetPosition not in success` is always true |
| MatcherProofs.StepPreserves | barrow.py:142-176 | one iteration keeps the loop invariant, only appends events, and never leaves through the cutoff exit |
| MatcherProofs.ScanWellFormed | barrow.py:142-176 | the rest of the loop appends only justified events (positions in order, matches inside their window and taken from the feed, placeholders at the expected date) and never exits at the cutoff |
| MatcherProofs.RunWellFormed | barrow.py:128-176 | events are positions 1..k in order, with k at most 3 and at most the number of records; each match carries a record's own date strictly inside `expectedDate ± 3 min`; each placeholder carries `expectedDate`; an early exit with records left happens only after all three positions |
| MatcherProofs.CaptionsPrintable | barrow.py:156-166 | every emitted event's date can be printed by `formatDate` |
| MatcherProofs.CutoffNeverReached | barrow.py:136-176 | for every feed and clock, the run never takes the cutoff exit and emits at most three events |
| MatcherProofs.StaleExactly | barrow.py:129-133 | the run is stale exactly when now minus two weeks is a valid `datetime` and the newest capture is strictly before it (a capture at the bound is fresh); a stale run emits nothing |
| MatcherProofs.FirstRecordMatches | barrow.py:129-158 | the first event, if any, is position 1 matched to the newest record with its own date; there is one exactly when the run is fresh (now minus two weeks a valid `datetime` at or before the newest capture), `lastDate` and the window around `firstDate` are valid `datetime`s, and `firstDate` can be printed, even if a later record then raises; a run that ends normally has one |
| MatcherProofs.StepClassification | barrow.py:149-176 | a record strictly inside the window is matched with its own date; one strictly below the low end gives a placeholder at the expected date; one exactly at the low end, or at or above the high end, changes nothing |
| MatcherProofs.PlaceholderConsumesRecord | barrow.py:142-176 | captures at T0, T0−61 min, T0−90 min give match 1, placeholder 2, placeholder 3, although the second capture lies inside position 3's window |
| MatcherProofs.EvenlySpacedFeed | barrow.py:142-176 | captures at T0, T0−30 min, T0−60 min give three matches; a fourth record, even a malformed one, only triggers the exit on line 144 |
| MatcherProofs.ShortFeedLeavesSlotEmpty | barrow.py:142-176 | with two well-spaced captures, positions 1 and 2 are matched and position 3 gets no event at all |
| MatchLoop.ScanFeed | barrow.py:138-176 | the imperative loop over `targetPosition` and `success` produces exactly the events and outcome of the fold |
| MatchLoop.RunParsed | barrow.py:129-176 | the freshness check followed by the loop gives the modelled run; it never exits at the cutoff and emits at most three events; it is stale exactly when now minus two weeks is a valid `datetime` and the newest capture is strictly before it, and then emits nothing; its events are well formed (positions in order, matches in their window and from the feed, placeholders at `expectedDate`); it begins with position 1 matched to the newest record exactly when the run is fresh and record 0 raises no overflow or printing error, whatever later records do |
| MatchLoop.RunFeed | barrow.py:128-176 | the run on the raw feed equals the modelled run; it never exits at the cutoff and emits at most three events |

## Left out

- Fetching and decoding the feed (`urllib2.urlopen`, `json.loads`, lines 34-35) is network I/O. The feed is an input sequence of records; a payload missing `event_at` or `source` is not modelled.
- `download` (lines 48-54), `stampGeoTiff` (lines 57-108) and `createNoDataImage` (lines 111-126) are HTTP, subprocess, image and file I/O. They become the `Matched` and `Placeholder` events. Their own failures are not modelled; the renderer is taken to succeed.
- The environment-variable directories and output file names (lines 14-15, 58, 112), and all logging (lines 17, 132, 160, 169), have no effect on which layers are chosen.
- `datetime.now()` is nondeterministic. It becomes the parameter `now`, in microseconds since 0001-01-01T00:00:00.
- `sys.exit()` becomes the run's `Outcome`; the process exit status is not modelled.
- Timestamp.DateObject: parses only the fixed-width form `YYYY-MM-DDTHH:MM:SS`. `strptime` also accepts single-digit month, day, hour, minute and second fields, and a space-padded day; those strings are rejected here. Python's `$` also matches just before a final newline, so `...-08:00\n` parses in the script but not here.
- Timestamp.FormatDate: models Python 2's `strftime` (years before 1900 rejected). Python 3 would print them.

=== FILE: calendar.dfy ===
/**
 * The proleptic Gregorian calendar behind Python's `datetime`: dates between
 * 0001-01-01 and 9999-12-31 with second precision, numbered as whole seconds
 * since 0001-01-01T00:00:00.  Day numbers ("ordinals") follow `datetime`'s
 * own convention, where 0001-01-01 is day 1.
 */
module Calendar {

  const MinYear := 1
  const MaxYear := 9999
  const SecondsPerDay := 86400
  /** Ordinal of 9999-12-31, the last day `datetime` can represent. */
  const MaxOrdinal := 3652059
  /** Seconds from 0001-01-01T00:00:00 to 9999-12-31T23:59:59. */
  const MaxSeconds := MaxOrdinal * SecondsPerDay - 1

  /** A `datetime` without sub-second part, field by field. */
  datatype DateTime = DateTime(year: int, month: int, day: int, hour: int, minute: int, second: int)

  predicate IsLeap(y: int) {
    y % 4 == 0 && (y % 100 != 0 || y % 400 == 0)
  }

  function DaysInYear(y: int): int {
    if IsLeap(y) then 366 else 365
  }

  function DaysInMonth(y: int, m: int): int
    requires 1 <= m <= 12
  {
    if m == 2 then (if IsLeap(y) then 29 else 28)
    else if m == 4 || m == 6 || m == 9 || m == 11 then 30
    else 31
  }

  /** Days of year `y` that lie before the first of month `m` (month 13 stands for the next year). */
  function DaysBeforeMonth(y: int, m: int): int
    requires 1 <= m <= 13
  {
    [0, 31, 59, 90, 120, 151, 181, 212, 243, 273, 304, 334, 365][m - 1] + (if m > 2 && IsLeap(y) then 1 else 0)
  }

  lemma DaysBeforeMonthStep(y: int, m: int)
    requires 1 <= m <= 12
    ensures DaysBeforeMonth(y, m + 1) == DaysBeforeMonth(y, m) + DaysInMonth(y, m)
  {
  }

  /** Days before January 1 of year `y`, counted from 0001-01-01. */
  function DaysBeforeYear(y: int): int
    requires y >= 1
  {
    var z := y - 1;
    365 * z + z / 4 - z / 100 + z / 400
  }

  predicate ValidDate(y: int, m: int, d: int) {
    MinYear <= y <= MaxYear && 1 <= m <= 12 && 1 <= d <= DaysInMonth(y, m)
  }

  /** The values `datetime` accepts: a valid date and a time of day with 0..59 seconds. */
  predicate Valid(dt: DateTime) {
    && ValidDate(dt.year, dt.month, dt.day)
    && 0 <= dt.hour < 24 && 0 <= dt.minute < 60 && 0 <= dt.second < 60
  }

  /** Field-by-field (lexicographic) order, the order Python uses to compare two `datetime`s. */
  predicate Before(a: DateTime, b: DateTime) {
    || a.year < b.year
    || (a.year == b.year && a.month < b.month)
    || (a.year == b.year && a.month == b.month && a.day < b.day)
    || (a.year == b.year && a.month == b.month && a.day == b.day && a.hour < b.hour)
    || (a.year == b.year && a.month == b.month && a.day == b.day && a.hour == b.hour && a.minute < b.minute)
    || (a.year == b.year && a.month == b.month && a.day == b.day && a.hour == b.hour && a.minute == b.minute
        && a.second < b.second)
  }

  /** How `y / k` moves from `(y - 1) / k`, for the divisors of the leap-year rule. */
  lemma DivStep4(y: int)
    requires y >= 1
    ensures y % 4 == 0 ==> y / 4 == (y - 1) / 4 + 1
    ensures y % 4 != 0 ==> y / 4 == (y - 1) / 4
  {
  }

  lemma DivStep100(y: int)
    requires y >= 1
    ensures y % 100 == 0 ==> y / 100 == (y - 1) / 100 + 1
    ensures y % 100 != 0 ==> y / 100 == (y - 1) / 100
  {
  }

  lemma DivStep400(y: int)
    requires y >= 1
    ensures y % 400 == 0 ==> y / 400 == (y - 1) / 400 + 1
    ensures y % 400 != 0 ==> y / 400 == (y - 1) / 400
  {
  }

  /** A multiple of 400 is a multiple of 100, which is a multiple of 4. */
  lemma DivisorsNest(y: int)
    ensures y % 400 == 0 ==> y % 100 == 0
    ensures y % 100 == 0 ==> y % 4 == 0
  {
    var q400, q100 := y / 400, y / 100;
    if y % 400 == 0 {
      assert y == 400 * q400;
      assert y - 100 * (4 * q400) == 0;
    }
    if y % 100 == 0 {
      assert y == 100 * q100;
      assert y - 4 * (25 * q100) == 0;
    }
  }

  lemma DaysBeforeYearStep(y: int)
    requires y >= 1
    ensures DaysBeforeYear(y + 1) == DaysBeforeYear(y) + DaysInYear(y)
  {
    DivStep4(y);
    DivStep100(y);
    DivStep400(y);
    DivisorsNest(y);
    var a, b, c := y / 4 - (y - 1) / 4, y / 100 - (y - 1) / 100, y / 400 - (y - 1) / 400;
    assert DaysBeforeYear(y + 1) - DaysBeforeYear(y) == 365 + a - b + c;
    if y % 400 == 0 {
      assert a == 1 && b == 1 && c == 1;
    } else if y % 100 == 0 {
      assert a == 1 && b == 1 && c == 0;
    } else if y % 4 == 0 {
      assert a == 1 && b == 0 && c == 0;
    } else {
      assert a == 0 && b == 0 && c == 0;
    }
  }

  /** Every year has at least 365 days, so year starts grow at least that fast. */
  lemma {:induction false} DaysBeforeYearMonotone(a: int, b: int)
    requires 1 <= a <= b
    ensures DaysBeforeYear(a) + 365 * (b - a) <= DaysBeforeYear(b)
    decreases b - a
  {
    if a < b {
      DaysBeforeYearMonotone(a, b - 1);
      DaysBeforeYearStep(b - 1);
    }
  }

  lemma DaysBeforeYearAtMost(y: int)
    requires y >= 1
    ensures DaysBeforeYear(y) <= 366 * (y - 1)
  {
    var z := y - 1;
    assert z / 400 <= z / 100;
    assert z / 4 <= z;
  }

  lemma DaysBeforeMonthFullYear(y: int)
    ensures DaysBeforeMonth(y, 13) == DaysInYear(y)
  {
  }

  /** Splitting a second of the day into hour, minute and second. */
  lemma TimeOfDay(s: int)
    requires 0 <= s < SecondsPerDay
    ensures 0 <= s / 3600 < 24 && 0 <= s % 3600 / 60 < 60 && 0 <= s % 60 < 60
    ensures s == SecondOfDay(s / 3600, s % 3600 / 60, s % 60)
  {
    var h := s / 3600;
    var r := s % 3600;
    assert s == h * 3600 + r;
    assert r == r / 60 * 60 + r % 60;
    assert r % 60 == s % 60;
  }

  /** Every month has at least 28 days. */
  lemma {:induction false} DaysBeforeMonthMonotone(y: int, a: int, b: int)
    requires 1 <= a <= b <= 13
    ensures DaysBeforeMonth(y, a) + 28 * (b - a) <= DaysBeforeMonth(y, b)
    decreases b - a
  {
    if a < b {
      DaysBeforeMonthMonotone(y, a, b - 1);
      DaysBeforeMonthStep(y, b - 1);
    }
  }

  /** Day number of a date, 0001-01-01 being day 1 (`date.toordinal()`). */
  function ToOrdinal(y: int, m: int, d: int): (n: int)
    requires ValidDate(y, m, d)
    ensures DaysBeforeYear(y) < n <= DaysBeforeYear(y + 1)
    ensures 1 <= n <= MaxOrdinal
  {
    DaysBeforeMonthStep(y, m);
    DaysBeforeMonthMonotone(y, m + 1, 13);
    DaysBeforeMonthFullYear(y);
    DaysBeforeYearStep(y);
    DaysBeforeYearMonotone(y + 1, MaxYear + 1);
    DaysBeforeYear(y) + DaysBeforeMonth(y, m) + d
  }

  /** The year containing day `n`, searched upwards from a year known to start before it. */
  function FindYear(n: int, y: int): (r: int)
    requires MinYear <= y <= MaxYear
    requires DaysBeforeYear(y) < n <= DaysBeforeYear(MaxYear + 1)
    ensures y <= r <= MaxYear
    ensures DaysBeforeYear(r) < n <= DaysBeforeYear(r + 1)
    decreases MaxYear - y
  {
    if n <= DaysBeforeYear(y + 1) then y else FindYear(n, y + 1)
  }

  /** The month of year `y` containing day-of-year `k`, searched upwards from month `m`. */
  function FindMonth(y: int, k: int, m: int): (r: int)
    requires 1 <= m <= 12
    requires DaysBeforeMonth(y, m) < k <= DaysBeforeMonth(y, 13)
    ensures m <= r <= 12
    ensures DaysBeforeMonth(y, r) < k <= DaysBeforeMonth(y, r + 1)
    decreases 12 - m
  {
    if k <= DaysBeforeMonth(y, m + 1) then m else FindMonth(y, k, m + 1)
  }

  /** The year search may start at `(n - 1) / 366 + 1`: no year is longer than 366 days. */
  lemma YearSearchStart(n: int)
    requires 1 <= n <= MaxOrdinal
    ensures MinYear <= (n - 1) / 366 + 1 <= MaxYear
    ensures DaysBeforeYear((n - 1) / 366 + 1) < n
  {
    DaysBeforeYearAtMost((n - 1) / 366 + 1);
  }

  /** Day `k` of year `y`, found in month `m`, is a valid date. */
  lemma DayOfMonth(y: int, k: int, m: int)
    requires MinYear <= y <= MaxYear && 1 <= m <= 12
    requires DaysBeforeMonth(y, m) < k <= DaysBeforeMonth(y, m + 1)
    ensures ValidDate(y, m, k - DaysBeforeMonth(y, m))
  {
    DaysBeforeMonthStep(y, m);
  }

  /** The date of day number `n` (`date.fromordinal(n)`), as year, month and day. */
  function FromOrdinal(n: int): (r: (int, int, int))
    requires 1 <= n <= MaxOrdinal
    ensures ValidDate(r.0, r.1, r.2)
    ensures ToOrdinal(r.0, r.1, r.2) == n
  {
    YearSearchStart(n);
    var y := FindYear(n, (n - 1) / 366 + 1);
    var k := n - DaysBeforeYear(y);
    DaysBeforeYearStep(y);
    DaysBeforeMonthFullYear(y);
    var m := FindMonth(y, k, 1);
    DayOfMonth(y, k, m);
    (y, m, k - DaysBeforeMonth(y, m))
  }

  /** Only one year can contain a given day. */
  lemma YearUnique(n: int, a: int, b: int)
    requires 1 <= a && 1 <= b
    requires DaysBeforeYear(a) < n <= DaysBeforeYear(a + 1)
    requires DaysBeforeYear(b) < n <= DaysBeforeYear(b + 1)
    ensures a == b
  {
    if a < b {
      DaysBeforeYearMonotone(a + 1, b);
    } else if b < a {
      DaysBeforeYearMonotone(b + 1, a);
    }
  }

  /** Only one month of a year can contain a given day of that year. */
  lemma MonthUnique(y: int, k: int, a: int, b: int)
    requires 1 <= a <= 12 && 1 <= b <= 12
    requires DaysBeforeMonth(y, a) < k <= DaysBeforeMonth(y, a + 1)
    requires DaysBeforeMonth(y, b) < k <= DaysBeforeMonth(y, b + 1)
    ensures a == b
  {
    if a < b {
      DaysBeforeMonthMonotone(y, a + 1, b);
    } else if b < a {
      DaysBeforeMonthMonotone(y, b + 1, a);
    }
  }

  /** Numbering a valid date and converting the number back gives the same date. */
  lemma OrdinalRoundTrip(y: int, m: int, d: int)
    requires ValidDate(y, m, d)
    ensures FromOrdinal(ToOrdinal(y, m, d)) == (y, m, d)
  {
    var n := ToOrdinal(y, m, d);
    var r := FromOrdinal(n);
    YearUnique(n, r.0, y);
    var k := n - DaysBeforeYear(y);
    MonthUnique(y, k, r.1, m);
  }

  /** Seconds into the day of a time of day. */
  function SecondOfDay(hour: int, minute: int, second: int): int {
    hour * 3600 + minute * 60 + second
  }

  /** A second of the day splits into hour, minute and second in exactly one way. */
  lemma SecondOfDaySplit(h: int, m: int, s: int)
    requires 0 <= h < 24 && 0 <= m < 60 && 0 <= s < 60
    ensures 0 <= SecondOfDay(h, m, s) < SecondsPerDay
    ensures SecondOfDay(h, m, s) / 3600 == h
    ensures SecondOfDay(h, m, s) % 3600 / 60 == m
    ensures SecondOfDay(h, m, s) % 60 == s
  {
    var x := m * 60 + s;
    assert 0 <= x < 3600;
    assert SecondOfDay(h, m, s) % 3600 == x;
  }

  /** Seconds since 0001-01-01T00:00:00 of a valid `datetime`. */
  function ToSeconds(dt: DateTime): (t: int)
    requires Valid(dt)
    ensures 0 <= t <= MaxSeconds
  {
    SecondOfDaySplit(dt.hour, dt.minute, dt.second);
    (ToOrdinal(dt.year, dt.month, dt.day) - 1) * SecondsPerDay + SecondOfDay(dt.hour, dt.minute, dt.second)
  }

  /** The `datetime` lying `t` seconds after 0001-01-01T00:00:00. */
  function FromSeconds(t: int): (dt: DateTime)
    requires 0 <= t <= MaxSeconds
    ensures Valid(dt)
    ensures ToSeconds(dt) == t
  {
    var date := FromOrdinal(t / SecondsPerDay + 1);
    var s := t % SecondsPerDay;
    TimeOfDay(s);
    DateTime(date.0, date.1, date.2, s / 3600, s % 3600 / 60, s % 60)
  }

  /**
   * Converting a valid `datetime` to seconds loses nothing: the numbering is
   * strictly monotone, hence one-to-one.
   */
  lemma SecondsRoundTrip(dt: DateTime)
    requires Valid(dt)
    ensures FromSeconds(ToSeconds(dt)) == dt
  {
    var r := FromSeconds(ToSeconds(dt));
    SecondsOrder(r, dt);
    SecondsOrder(dt, r);
  }

  /** Days are numbered in date order. */
  lemma OrdinalOrder(a: DateTime, b: DateTime)
    requires Valid(a) && Valid(b)
    requires Before(a, b) && (a.year, a.month, a.day) != (b.year, b.month, b.day)
    ensures ToOrdinal(a.year, a.month, a.day) < ToOrdinal(b.year, b.month, b.day)
  {
    if a.year < b.year {
      DaysBeforeYearMonotone(a.year + 1, b.year);
    } else if a.month < b.month {
      DaysBeforeMonthMonotone(a.year, a.month + 1, b.month);
    }
  }

  /**
   * Comparing seconds is comparing `datetime`s: the numbering preserves and
   * reflects Python's field-by-field order.
   */
  lemma SecondsOrder(a: DateTime, b: DateTime)
    requires Valid(a) && Valid(b)
    ensures Before(a, b) <==> ToSeconds(a) < ToSeconds(b)
  {
    if Before(a, b) {
      if (a.year, a.month, a.day) != (b.year, b.month, b.day) {
        OrdinalOrder(a, b);
      }
    } else if a != b {
      assert Before(b, a);
      if (a.year, a.month, a.day) != (b.year, b.month, b.day) {
        OrdinalOrder(b, a);
      }
    }
  }
}

=== FILE: config.dfy ===
/** The run's fixed parameters, all durations in seconds. */
module Config {
  /** Number of output layers (slots). */
  const MaxLayers := 3
  /** Target spacing between consecutive layers: 30 minutes. */
  const LayerInterval := 30 * 60
  /** How recent the newest capture must be: 2 weeks. */
  const OffsetFromNow := 2 * 7 * 86400
  /** Tolerance on either side of a layer's target time: 3 minutes. */
  const AcceptableRange := 3 * 60
  /** `datetime.now()` carries microseconds; capture times do not. */
  const MicrosPerSecond := 1000000
}

=== FILE: match_loop.dfy ===
/**
 * The run written as the script writes it: a `for` loop over the feed that
 * updates `targetPosition` and `success` in place and leaves through early
 * returns where the script calls `sys.exit()` or raises.
 */
module MatchLoop {
  import opened Config
  import opened SlotMatcher
  import Timestamp
  import MatcherProofs

  lemma ScanAdvance(first: int, last: int, samples: seq<Sample>, i: nat, st: State, st': State)
    requires i < |samples| && Step(first, last, i, samples[i], st) == Next(st')
    ensures Scan(first, last, samples, i, st) == Scan(first, last, samples, i + 1, st')
  {
  }

  /**
   * The `for` loop itself, over the whole (parsed) feed, from position 1
   * with nothing filled.  `first` is `firstDate` and `last` is `lastDate`.
   */
  method ScanFeed(samples: seq<Sample>, first: int, last: int) returns (events: seq<Event>, outcome: Outcome)
    ensures RunResult(events, outcome) == Scan(first, last, samples, 0, Initial())
  {
    ghost var goal := Scan(first, last, samples, 0, Initial());
    events := [];
    var target := 1;
    var success: map<int, bool> := map[];
    var i := 0;
    assert State(target, success, events) == Initial();
    while i < |samples|
      invariant 0 <= i <= |samples|
      invariant Scan(first, last, samples, i, State(target, success, events)) == goal
    {
      ghost var st := State(target, success, events);
      if target > MaxLayers {
        assert Step(first, last, i, samples[i], st) == Halt(st, AllSlotsFilled);
        return events, AllSlotsFilled;
      }
      var current := samples[i].time;
      ghost var step := Step(first, last, i, samples[i], st);
      if current.None? {
        assert step == Halt(st, Failed(Unparseable(i)));
        return events, Failed(Unparseable(i));
      }
      var currentDate := current.value;
      var expectedDate := ExpectedDate(first, target);
      var lowEnd := expectedDate - AcceptableRange;
      var highEnd := expectedDate + AcceptableRange;
      if !InRange(expectedDate) || !InRange(lowEnd) || !InRange(highEnd) {
        assert step == Halt(st, Failed(DateOverflow));
        return events, Failed(DateOverflow);
      }
      if lowEnd < currentDate && currentDate < highEnd {
        if !Printable(currentDate) {
          assert step == Halt(st, Failed(Unformattable(Timestamp.YearBefore1900)));
          return events, Failed(Unformattable(Timestamp.YearBefore1900));
        }
        events := events + [Matched(target, samples[i].source, currentDate)];
        success := success[target := true];
        target := target + 1;
        assert step == Next(State(target, success, events));
      } else if currentDate < lowEnd && target !in success {
        if !Printable(expectedDate) {
          assert step == Halt(st, Failed(Unformattable(Timestamp.YearBefore1900)));
          return events, Failed(Unformattable(Timestamp.YearBefore1900));
        }
        events := events + [Placeholder(target, expectedDate)];
        success := success[target := false];
        target := target + 1;
        assert step == Next(State(target, success, events));
      } else if currentDate < last {
        assert step == Halt(st, CutoffReached);
        return events, CutoffReached;
      } else {
        assert step == Next(st);
      }
      ScanAdvance(first, last, samples, i, st, State(target, success, events));
      i := i + 1;
    }
    outcome := FeedExhausted;
  }

  /** The script from line 129 on, over the parsed feed: read the newest capture, check freshness, then loop. */
  method RunParsed(samples: seq<Sample>, now: int) returns (events: seq<Event>, outcome: Outcome)
    ensures RunResult(events, outcome) == RunSamples(samples, now)
    ensures outcome != CutoffReached && |events| <= MaxLayers
    ensures outcome == Stale ==> events == []
    ensures |samples| > 0 && samples[0].time.Some? ==>
              var first := samples[0].time.value;
              var bound := now - OffsetFromNow * MicrosPerSecond;
              && (outcome == Stale <==> 0 <= bound && first * MicrosPerSecond < bound)
              && MatcherProofs.WellFormedRun(first, samples, RunResult(events, outcome))
              && (outcome == FeedExhausted || outcome == AllSlotsFilled ==> |events| >= 1)
              && (|events| >= 1 ==> events[0] == Matched(1, samples[0].source, first))
              && (|events| >= 1
                  <==> (&& 0 <= bound <= first * MicrosPerSecond
                        && InRange(first - LayerInterval * MaxLayers) && InRange(first + AcceptableRange)
                        && Printable(first)))
  {
    if |samples| > 0 && samples[0].time.Some? {
      MatcherProofs.RunWellFormed(samples, now);
      MatcherProofs.StaleExactly(samples, now);
      MatcherProofs.FirstRecordMatches(samples, now);
    }
    if |samples| == 0 {
      return [], Failed(EmptyFeed);
    }
    var firstTime := samples[0].time;
    if firstTime.None? {
      return [], Failed(Unparseable(0));
    }
    var first := firstTime.value;
    var bound := now - OffsetFromNow * MicrosPerSecond;
    if bound < 0 {
      return [], Failed(DateOverflow);
    }
    if first * MicrosPerSecond < bound {
      return [], Stale;
    }
    var last := first - LayerInterval * MaxLayers;
    if !InRange(last) {
      return [], Failed(DateOverflow);
    }
    events, outcome := ScanFeed(samples, first, last);
  }

  /**
   * The whole run on the feed as fetched.  Parsing is pure, so every
   * record's `event_at` is parsed up front; a record that does not parse
   * still ends the run only when the loop reaches it.
   */
  method RunFeed(records: seq<Record>, now: int) returns (events: seq<Event>, outcome: Outcome)
    ensures RunResult(events, outcome) == Run(records, now)
    ensures outcome != CutoffReached && |events| <= MaxLayers
  {
    events, outcome := RunParsed(ToSamples(records), now);
  }
}

=== FILE: matcher.dfy ===
/**
 * The slot-matching run: one forward pass over the feed, newest capture
 * first, that fills layer positions 1..MaxLayers with either a matching
 * capture or a "no data" placeholder.  Rendering is abstracted into the
 * events the run emits, and `sys.exit()` into the run's outcome.
 */
module SlotMatcher {
  import opened Wrappers
  import opened Config
  import Calendar
  import Timestamp

  /** One element of the feed: the image URL and the raw `event_at` text. */
  datatype Record = Record(source: string, eventAt: string)

  /** A record with its `event_at` already parsed; `None` when `dateObject` would raise. */
  datatype Sample = Sample(source: string, time: Option<int>)

  /**
   * What the run renders: a stamped capture for a position (`stampGeoTiff`)
   * or a placeholder image naming the position's expected time (`createNoDataImage`).
   * Dates are seconds since 0001-01-01T00:00:00.
   */
  datatype Event =
    | Matched(position: int, source: string, date: int)
    | Placeholder(position: int, date: int)

  /** The exceptions that end a run early. */
  datatype Fault =
    | EmptyFeed                                     // `geoTiffs[0]` on an empty list
    | Unparseable(index: nat)                       // `dateObject` raised on this record
    | DateOverflow                                  // `datetime` arithmetic left years 1..9999
    | Unformattable(error: Timestamp.FormatError)   // `formatDate` raised on the caption's date

  /** How a run ends. */
  datatype Outcome =
    | Stale            // the newest capture is older than two weeks
    | AllSlotsFilled   // `sys.exit()` with every position handled and records left
    | CutoffReached    // `sys.exit()` on a record older than `lastDate`
    | FeedExhausted    // the `for` loop ran out of records
    | Failed(fault: Fault)

  datatype RunResult = RunResult(events: seq<Event>, outcome: Outcome)

  /** The loop's variables: `targetPosition`, the `success` map and the events so far. */
  datatype State = State(target: int, success: map<int, bool>, events: seq<Event>)

  /** The effect of one loop iteration: go on to the next record, or end the run. */
  datatype Transition = Next(state: State) | Halt(state: State, outcome: Outcome)

  /** Seconds a `datetime` can hold. */
  predicate InRange(t: int) {
    0 <= t <= Calendar.MaxSeconds
  }

  /**
   * Seconds `strftime` can print: `formatDate` succeeds on exactly these
   * (`Timestamp.FormattableSeconds`), so `Step` tests this instead of
   * printing the caption it does not keep.
   */
  predicate Printable(t: int) {
    t >= Timestamp.FirstFormattableSecond
  }

  /** `expectedDate` for a position: `firstDate - layerInterval * (position - 1)`. */
  function ExpectedDate(first: int, position: int): int {
    first - LayerInterval * (position - 1)
  }

  /** `lowEnd < currentDate < highEnd`: strictly inside the tolerance window. */
  predicate InWindow(current: int, expected: int) {
    expected - AcceptableRange < current < expected + AcceptableRange
  }

  /** The capture time of an `event_at` string, or `None` when `dateObject` raises. */
  function CaptureTime(raw: string): (r: Option<int>)
    ensures r.Some? <==> Timestamp.DateObject(raw).Success?
    ensures r.Some? ==> InRange(r.value)
  {
    match Timestamp.DateObject(raw)
    case Failure(_) => None
    case Success(dt) => Some(Calendar.ToSeconds(dt))
  }

  /** The capture time denotes exactly the `datetime` that `dateObject` returns. */
  lemma CaptureTimeIsParsedDate(raw: string)
    requires Timestamp.DateObject(raw).Success?
    ensures Calendar.FromSeconds(CaptureTime(raw).value) == Timestamp.DateObject(raw).value
  {
    Calendar.SecondsRoundTrip(Timestamp.DateObject(raw).value);
  }

  function ToSamples(records: seq<Record>): (samples: seq<Sample>)
    ensures |samples| == |records|
    ensures forall i :: 0 <= i < |records| ==>
              samples[i] == Sample(records[i].source, CaptureTime(records[i].eventAt))
  {
    if records == [] then []
    else [Sample(records[0].source, CaptureTime(records[0].eventAt))] + ToSamples(records[1..])
  }

  /** The run's starting state: position 1, nothing filled. */
  function Initial(): State {
    State(1, map[], [])
  }

  /** One iteration of the `for` loop, on record number `index`. */
  function Step(first: int, last: int, index: nat, sample: Sample, st: State): Transition {
    if st.target > MaxLayers then Halt(st, AllSlotsFilled)
    else if sample.time.None? then Halt(st, Failed(Unparseable(index)))
    else
      var current := sample.time.value;
      var expected := ExpectedDate(first, st.target);
      var lowEnd := expected - AcceptableRange;
      var highEnd := expected + AcceptableRange;
      if !InRange(expected) || !InRange(lowEnd) || !InRange(highEnd) then
        Halt(st, Failed(DateOverflow))
      else if lowEnd < current && current < highEnd then
        if !Printable(current) then Halt(st, Failed(Unformattable(Timestamp.YearBefore1900)))
        else
          Next(State(st.target + 1, st.success[st.target := true],
                     st.events + [Matched(st.target, sample.source, current)]))
      else if current < lowEnd && st.target !in st.success then
        if !Printable(expected) then Halt(st, Failed(Unformattable(Timestamp.YearBefore1900)))
        else
          Next(State(st.target + 1, st.success[st.target := false],
                     st.events + [Placeholder(st.target, expected)]))
      else if current < last then Halt(st, CutoffReached)
      else Next(st)
  }

  /** The loop from record `i` on. */
  function Scan(first: int, last: int, samples: seq<Sample>, i: nat, st: State): RunResult
    requires i <= |samples|
    decreases |samples| - i
  {
    if i == |samples| then RunResult(st.events, FeedExhausted)
    else
      match Step(first, last, i, samples[i], st)
      case Next(st') => Scan(first, last, samples, i + 1, st')
      case Halt(st', outcome) => RunResult(st'.events, outcome)
  }

  /**
   * The whole run on parsed records, `now` being `datetime.now()` in
   * microseconds since 0001-01-01T00:00:00.
   */
  function RunSamples(samples: seq<Sample>, now: int): RunResult {
    if |samples| == 0 then RunResult([], Failed(EmptyFeed))
    else if samples[0].time.None? then RunResult([], Failed(Unparseable(0)))
    else
      var first := samples[0].time.value;
      var bound := now - OffsetFromNow * MicrosPerSecond;
      if bound < 0 then RunResult([], Failed(DateOverflow))
      else if first * MicrosPerSecond < bound then RunResult([], Stale)
      else
        var last := first - LayerInterval * MaxLayers;
        if !InRange(last) then RunResult([], Failed(DateOverflow))
        else Scan(first, last, samples, 0, Initial())
  }

  /** The whole run on the feed as fetched. */
  function Run(records: seq<Record>, now: int): RunResult {
    RunSamples(ToSamples(records), now)
  }
}

=== FILE: matcher_proofs.dfy ===
/** What the slot-matching run guarantees, proved about `SlotMatcher`. */
module MatcherProofs {
  import opened Wrappers
  import opened Config
  import opened SlotMatcher
  import Calendar
  import Timestamp

  /** Some record among the first `bound` has this source and capture time. */
  ghost predicate FromFeed(samples: seq<Sample>, bound: int, source: string, date: int) {
    exists j :: 0 <= j < bound && j < |samples| && samples[j] == Sample(source, Some(date))
  }

  /**
   * Event number `k` is about position `k + 1` and carries a date `strftime`
   * can print; a match carries the date of
   * one of the first `bound` records, strictly inside that position's window;
   * a placeholder carries the position's expected date.
   */
  ghost predicate Justified(first: int, samples: seq<Sample>, bound: int, k: int, e: Event) {
    && e.position == k + 1
    && InRange(e.date) && Printable(e.date)
    && match e
       case Matched(_, source, date) =>
         InWindow(date, ExpectedDate(first, k + 1)) && FromFeed(samples, bound, source, date)
       case Placeholder(_, date) => date == ExpectedDate(first, k + 1)
  }

  /**
   * The loop invariant after `i` records: positions 1..target-1 are exactly
   * the keys of `success`, each has one justified event, in order, and
   * there is at most one event per record read so far.
   */
  ghost predicate Consistent(first: int, samples: seq<Sample>, i: int, st: State) {
    && 1 <= st.target <= MaxLayers + 1
    && |st.events| == st.target - 1
    && |st.events| <= i
    && (forall q :: q in st.success <==> 1 <= q < st.target)
    && (forall k :: 0 <= k < |st.events| ==> st.success[k + 1] == st.events[k].Matched?)
    && (forall k :: 0 <= k < |st.events| ==> Justified(first, samples, i, k, st.events[k]))
  }

  /** What every finished run satisfies once the newest capture has been parsed. */
  ghost predicate WellFormedRun(first: int, samples: seq<Sample>, r: RunResult) {
    && |r.events| <= MaxLayers
    && |r.events| <= |samples|
    && (forall k :: 0 <= k < |r.events| ==> Justified(first, samples, |samples|, k, r.events[k]))
    && r.outcome != CutoffReached
    && (r.outcome == AllSlotsFilled ==> |r.events| == MaxLayers)
  }

  lemma JustifiedWiden(first: int, samples: seq<Sample>, a: int, b: int, k: int, e: Event)
    requires a <= b && Justified(first, samples, a, k, e)
    ensures Justified(first, samples, b, k, e)
  {
    if e.Matched? {
      var j :| 0 <= j < a && j < |samples| && samples[j] == Sample(e.source, Some(e.date));
      assert 0 <= j < b;
    }
  }

  lemma ConsistentInitial(first: int, samples: seq<Sample>)
    ensures Consistent(first, samples, 0, Initial())
  {
  }

  /**
   * `targetPosition not in success` is always true while positions remain:
   * the keys of `success` are exactly the positions already handled.
   */
  lemma GuardAlwaysHolds(first: int, samples: seq<Sample>, i: int, st: State)
    requires Consistent(first, samples, i, st) && st.target <= MaxLayers
    ensures st.target !in st.success
  {
  }

  /** Every window of a position lies after `lastDate`, so the cutoff test can never succeed. */
  lemma WindowsAfterCutoff(first: int, position: int)
    requires 1 <= position <= MaxLayers
    ensures ExpectedDate(first, position) - AcceptableRange > first - LayerInterval * MaxLayers
  {
  }

  /** One iteration keeps the invariant, only appends events, and never exits at the cutoff. */
  lemma StepPreserves(first: int, last: int, samples: seq<Sample>, i: int, st: State)
    requires 0 <= i < |samples| && Consistent(first, samples, i, st)
    requires last == first - LayerInterval * MaxLayers
    ensures var t := Step(first, last, i, samples[i], st);
            && (t.Next? ==> Consistent(first, samples, i + 1, t.state) && st.events <= t.state.events)
            && (t.Halt? ==> t.state == st && t.outcome != CutoffReached && t.outcome != Stale
                            && (t.outcome == AllSlotsFilled ==> |st.events| == MaxLayers))
  {
    var t := Step(first, last, i, samples[i], st);
    forall k | 0 <= k < |st.events|
      ensures Justified(first, samples, i + 1, k, st.events[k])
    {
      JustifiedWiden(first, samples, i, i + 1, k, st.events[k]);
    }
    if st.target <= MaxLayers {
      WindowsAfterCutoff(first, st.target);
      if t.Next? && t.state != st {
        var e := t.state.events[|st.events|];
        assert t.state.events == st.events + [e];
        if e.Matched? {
          assert samples[i] == Sample(e.source, Some(e.date));
          assert Justified(first, samples, i + 1, |st.events|, e);
        }
      }
    }
  }

  /** The loop from record `i` on ends in a well-formed run that extends the events so far. */
  lemma {:induction false} ScanWellFormed(first: int, last: int, samples: seq<Sample>, i: int, st: State)
    requires 0 <= i <= |samples| && Consistent(first, samples, i, st)
    requires last == first - LayerInterval * MaxLayers
    ensures WellFormedRun(first, samples, Scan(first, last, samples, i, st))
    ensures st.events <= Scan(first, last, samples, i, st).events
    ensures Scan(first, last, samples, i, st).outcome != Stale
    decreases |samples| - i
  {
    if i == |samples| {
      forall k | 0 <= k < |st.events|
        ensures Justified(first, samples, |samples|, k, st.events[k])
      {
      }
    } else {
      StepPreserves(first, last, samples, i, st);
      match Step(first, last, i, samples[i], st)
      case Next(st') =>
        ScanWellFormed(first, last, samples, i + 1, st');
      case Halt(_, _) =>
        forall k | 0 <= k < |st.events|
          ensures Justified(first, samples, |samples|, k, st.events[k])
        {
          JustifiedWiden(first, samples, i, |samples|, k, st.events[k]);
        }
    }
  }

  /**
   * The shape of every run whose newest capture parses: positions 1, 2, ...,
   * k in order with k at most 3 and at most the number of records; each
   * match stamped with the date of a record of the feed, strictly inside its
   * window; each placeholder stamped with its expected date; never an exit at
   * the cutoff; and an early exit with records left only once all three
   * positions have events.
   */
  lemma RunWellFormed(samples: seq<Sample>, now: int)
    requires |samples| > 0 && samples[0].time.Some?
    ensures WellFormedRun(samples[0].time.value, samples, RunSamples(samples, now))
  {
    var first := samples[0].time.value;
    var last := first - LayerInterval * MaxLayers;
    ConsistentInitial(first, samples);
    ScanWellFormed(first, last, samples, 0, Initial());
  }

  /**
   * Every caption can be printed: each event's date is a `datetime` that
   * `formatDate` turns into text.
   */
  lemma CaptionsPrintable(samples: seq<Sample>, now: int)
    requires |samples| > 0 && samples[0].time.Some?
    ensures var r := RunSamples(samples, now);
            forall k :: 0 <= k < |r.events| ==>
              InRange(r.events[k].date) && Timestamp.FormatDate(Calendar.FromSeconds(r.events[k].date)).Success?
  {
    var r := RunSamples(samples, now);
    RunWellFormed(samples, now);
    forall k | 0 <= k < |r.events|
      ensures InRange(r.events[k].date) && Timestamp.FormatDate(Calendar.FromSeconds(r.events[k].date)).Success?
    {
      assert Justified(samples[0].time.value, samples, |samples|, k, r.events[k]);
      Timestamp.FormattableSeconds(r.events[k].date);
    }
  }

  /** Whatever the feed and the clock, the cutoff exit is never taken and at most three events are emitted. */
  lemma CutoffNeverReached(records: seq<Record>, now: int)
    ensures Run(records, now).outcome != CutoffReached
    ensures |Run(records, now).events| <= MaxLayers
  {
    var samples := ToSamples(records);
    if |samples| > 0 && samples[0].time.Some? {
      RunWellFormed(samples, now);
    }
  }

  /**
   * The freshness check: the run is stale exactly when the newest capture lies
   * strictly before `now` minus two weeks (a capture exactly at that bound is
   * fresh), and a stale run emits nothing.
   */
  lemma StaleExactly(samples: seq<Sample>, now: int)
    requires |samples| > 0 && samples[0].time.Some?
    ensures var bound := now - OffsetFromNow * MicrosPerSecond;
            RunSamples(samples, now).outcome == Stale
            <==> 0 <= bound && samples[0].time.value * MicrosPerSecond < bound
    ensures RunSamples(samples, now).outcome == Stale ==> RunSamples(samples, now).events == []
  {
    var first := samples[0].time.value;
    var last := first - LayerInterval * MaxLayers;
    ConsistentInitial(first, samples);
    ScanWellFormed(first, last, samples, 0, Initial());
  }

  /**
   * The newest record always fills position 1 with its own date (it is the
   * window's centre).  The run emits that event first exactly when the run
   * is fresh and record 0 itself raises nothing (no `datetime` overflow, a
   * printable date), whatever happens on later records.
   */
  lemma FirstRecordMatches(samples: seq<Sample>, now: int)
    requires |samples| > 0 && samples[0].time.Some?
    ensures var r := RunSamples(samples, now);
            (r.outcome == FeedExhausted || r.outcome == AllSlotsFilled) ==> |r.events| >= 1
    ensures var r := RunSamples(samples, now);
            |r.events| >= 1 ==> r.events[0] == Matched(1, samples[0].source, samples[0].time.value)
    ensures var r := RunSamples(samples, now);
            var first := samples[0].time.value;
            var bound := now - OffsetFromNow * MicrosPerSecond;
            |r.events| >= 1
            <==> (&& 0 <= bound <= first * MicrosPerSecond
                  && InRange(first - LayerInterval * MaxLayers) && InRange(first + AcceptableRange)
                  && Printable(first))
  {
    var first := samples[0].time.value;
    var last := first - LayerInterval * MaxLayers;
    var bound := now - OffsetFromNow * MicrosPerSecond;
    if bound >= 0 && first * MicrosPerSecond >= bound && InRange(last) {
      assert RunSamples(samples, now) == Scan(first, last, samples, 0, Initial());
      if InRange(first + AcceptableRange) && Printable(first) {
        var st1 := State(2, map[1 := true], [Matched(1, samples[0].source, first)]);
        assert Step(first, last, 0, samples[0], Initial()) == Next(st1);
        ConsistentInitial(first, samples);
        StepPreserves(first, last, samples, 0, Initial());
        ScanWellFormed(first, last, samples, 1, st1);
      } else {
        assert Step(first, last, 0, samples[0], Initial()).Halt?;
      }
    }
  }

  /**
   * One iteration while positions remain, away from the calendar's limits:
   * a record strictly inside the window is matched with its own date; one
   * strictly below the window's low end yields a placeholder at the expected
   * date (and is consumed); one exactly at the low end, or at or above the
   * high end, changes nothing.
   */
  lemma StepClassification(first: int, last: int, samples: seq<Sample>, i: int, st: State,
                           source: string, current: int)
    requires Consistent(first, samples, i, st) && st.target <= MaxLayers
    requires last == first - LayerInterval * MaxLayers
    requires InRange(ExpectedDate(first, st.target) + AcceptableRange)
    requires Printable(ExpectedDate(first, st.target) - AcceptableRange)
    ensures var e := ExpectedDate(first, st.target);
            var t := Step(first, last, i, Sample(source, Some(current)), st);
            && t.Next?
            && (InWindow(current, e) <==> t.state.events == st.events + [Matched(st.target, source, current)])
            && (current < e - AcceptableRange <==> t.state.events == st.events + [Placeholder(st.target, e)])
            && (current == e - AcceptableRange || current >= e + AcceptableRange <==> t.state == st)
  {
    WindowsAfterCutoff(first, st.target);
    var e := ExpectedDate(first, st.target);
    var t := Step(first, last, i, Sample(source, Some(current)), st);
    GuardAlwaysHolds(first, samples, i, st);
    if InWindow(current, e) {
      assert t == Next(State(st.target + 1, st.success[st.target := true],
                             st.events + [Matched(st.target, source, current)]));
      assert t.state.events[|st.events|].Matched?;
      assert t.state.events != st.events + [Placeholder(st.target, e)];
    } else if current < e - AcceptableRange {
      assert t == Next(State(st.target + 1, st.success[st.target := false],
                             st.events + [Placeholder(st.target, e)]));
      assert t.state.events[|st.events|].Placeholder?;
      assert t.state.events != st.events + [Matched(st.target, source, current)];
    } else {
      assert t == Next(st);
    }
  }

  /**
   * A feed of captures at T0, T0 - 61 min and T0 - 90 min gives a match at
   * position 1 and placeholders at positions 2 and 3.  The second record
   * lies inside position 3's window, but it was consumed by position 2's
   * placeholder and is never tried again.
   */
  lemma PlaceholderConsumesRecord(t0: int, now: int, a: string, b: string, c: string)
    requires Printable(t0 - 2 * LayerInterval) && InRange(t0 + AcceptableRange)
    requires OffsetFromNow * MicrosPerSecond <= now <= (t0 + OffsetFromNow) * MicrosPerSecond
    ensures InWindow(t0 - 61 * 60, ExpectedDate(t0, 3))
    ensures RunSamples([Sample(a, Some(t0)), Sample(b, Some(t0 - 61 * 60)), Sample(c, Some(t0 - 90 * 60))], now)
            == RunResult([Matched(1, a, t0), Placeholder(2, t0 - 30 * 60), Placeholder(3, t0 - 60 * 60)], FeedExhausted)
  {
    var samples := [Sample(a, Some(t0)), Sample(b, Some(t0 - 61 * 60)), Sample(c, Some(t0 - 90 * 60))];
    var last := t0 - LayerInterval * MaxLayers;
    var s1 := State(2, map[1 := true], [Matched(1, a, t0)]);
    var s2 := State(3, map[1 := true, 2 := false], [Matched(1, a, t0), Placeholder(2, t0 - 30 * 60)]);
    var s3 := State(4, map[1 := true, 2 := false, 3 := false],
                    [Matched(1, a, t0), Placeholder(2, t0 - 30 * 60), Placeholder(3, t0 - 60 * 60)]);
    assert Step(t0, last, 0, samples[0], Initial()) == Next(s1);
    assert Step(t0, last, 1, samples[1], s1) == Next(s2);
    assert Step(t0, last, 2, samples[2], s2) == Next(s3);
    assert Scan(t0, last, samples, 3, s3) == RunResult(s3.events, FeedExhausted);
    assert Scan(t0, last, samples, 2, s2) == Scan(t0, last, samples, 3, s3);
    assert Scan(t0, last, samples, 1, s1) == Scan(t0, last, samples, 2, s2);
    assert Scan(t0, last, samples, 0, Initial()) == Scan(t0, last, samples, 1, s1);
  }

  /**
   * Captures exactly 30 and 60 minutes apart fill all three positions with
   * matches; the run then leaves before even parsing the next record, so a
   * malformed fourth record does no harm.
   */
  lemma EvenlySpacedFeed(t0: int, now: int, a: string, b: string, c: string, next: Sample)
    requires Printable(t0 - 2 * LayerInterval) && InRange(t0 + AcceptableRange)
    requires OffsetFromNow * MicrosPerSecond <= now <= (t0 + OffsetFromNow) * MicrosPerSecond
    ensures RunSamples([Sample(a, Some(t0)), Sample(b, Some(t0 - 30 * 60)), Sample(c, Some(t0 - 60 * 60))], now)
            == RunResult([Matched(1, a, t0), Matched(2, b, t0 - 30 * 60), Matched(3, c, t0 - 60 * 60)], FeedExhausted)
    ensures RunSamples([Sample(a, Some(t0)), Sample(b, Some(t0 - 30 * 60)), Sample(c, Some(t0 - 60 * 60)), next], now)
            == RunResult([Matched(1, a, t0), Matched(2, b, t0 - 30 * 60), Matched(3, c, t0 - 60 * 60)], AllSlotsFilled)
  {
    var samples := [Sample(a, Some(t0)), Sample(b, Some(t0 - 30 * 60)), Sample(c, Some(t0 - 60 * 60))];
    var longer := [Sample(a, Some(t0)), Sample(b, Some(t0 - 30 * 60)), Sample(c, Some(t0 - 60 * 60)), next];
    var last := t0 - LayerInterval * MaxLayers;
    var s1 := State(2, map[1 := true], [Matched(1, a, t0)]);
    var s2 := State(3, map[1 := true, 2 := true], [Matched(1, a, t0), Matched(2, b, t0 - 30 * 60)]);
    var s3 := State(4, map[1 := true, 2 := true, 3 := true],
                    [Matched(1, a, t0), Matched(2, b, t0 - 30 * 60), Matched(3, c, t0 - 60 * 60)]);
    assert Step(t0, last, 0, samples[0], Initial()) == Next(s1);
    assert Step(t0, last, 1, samples[1], s1) == Next(s2);
    assert Step(t0, last, 2, samples[2], s2) == Next(s3);
    assert Scan(t0, last, samples, 3, s3) == RunResult(s3.events, FeedExhausted);
    assert Scan(t0, last, samples, 2, s2) == Scan(t0, last, samples, 3, s3);
    assert Scan(t0, last, samples, 1, s1) == Scan(t0, last, samples, 2, s2);
    assert Scan(t0, last, samples, 0, Initial()) == Scan(t0, last, samples, 1, s1);
    assert longer[0] == samples[0] && longer[1] == samples[1] && longer[2] == samples[2];
    assert Step(t0, last, 3, next, s3) == Halt(s3, AllSlotsFilled);
    assert Scan(t0, last, longer, 3, s3) == RunResult(s3.events, AllSlotsFilled);
    assert Scan(t0, last, longer, 2, s2) == Scan(t0, last, longer, 3, s3);
    assert Scan(t0, last, longer, 1, s1) == Scan(t0, last, longer, 2, s2);
    assert Scan(t0, last, longer, 0, Initial()) == Scan(t0, last, longer, 1, s1);
  }

  /** With only two records, position 3 gets no event at all, not even a placeholder. */
  lemma ShortFeedLeavesSlotEmpty(t0: int, now: int, a: string, b: string)
    requires Printable(t0 - 2 * LayerInterval) && InRange(t0 + AcceptableRange)
    requires OffsetFromNow * MicrosPerSecond <= now <= (t0 + OffsetFromNow) * MicrosPerSecond
    ensures RunSamples([Sample(a, Some(t0)), Sample(b, Some(t0 - 30 * 60))], now)
            == RunResult([Matched(1, a, t0), Matched(2, b, t0 - 30 * 60)], FeedExhausted)
  {
    var samples := [Sample(a, Some(t0)), Sample(b, Some(t0 - 30 * 60))];
    var last := t0 - LayerInterval * MaxLayers;
    var s1 := State(2, map[1 := true], [Matched(1, a, t0)]);
    var s2 := State(3, map[1 := true, 2 := true], [Matched(1, a, t0), Matched(2, b, t0 - 30 * 60)]);
    assert Step(t0, last, 0, samples[0], Initial()) == Next(s1);
    assert Step(t0, last, 1, samples[1], s1) == Next(s2);
    assert Scan(t0, last, samples, 2, s2) == RunResult(s2.events, FeedExhausted);
    assert Scan(t0, last, samples, 1, s1) == Scan(t0, last, samples, 2, s2);
    assert Scan(t0, last, samples, 0, Initial()) == Scan(t0, last, samples, 1, s1);
  }
}

=== FILE: timestamp.dfy ===
/**
 * The two timestamp helpers of the feed: `dateObject`, which strips the
 * fixed Alaska offset from an `event_at` string and parses the rest, and
 * `formatDate`, which prints a `datetime` for the image caption.
 */
module Timestamp {
  import opened Wrappers
  import opened Calendar

  /**
   * Why `dateObject` raises: the offset pattern is absent (the regular
   * expression finds nothing, so `.group` is called on `None`), or the rest
   * is not a `datetime` in the expected format (`strptime` raises).
   */
  datatype ParseError = NoOffsetSuffix | BadFormat

  /** `strftime` in Python 2 refuses years before 1900. */
  datatype FormatError = YearBefore1900

  /** Length of `YYYY-MM-DDTHH:MM:SS`. */
  const StampLength := 19
  /** Length of the `-0X:00` offset. */
  const OffsetLength := 6
  /** The first year Python 2's `strftime` accepts. */
  const FirstFormattableYear := 1900

  /** The two offsets the pattern `-0[8-9]:00` admits (Alaska standard and daylight time). */
  predicate IsOffset(z: string) {
    z == "-08:00" || z == "-09:00"
  }

  predicate IsDigit(c: char) {
    '0' <= c <= '9'
  }

  function DigitValue(c: char): int
    requires IsDigit(c)
  {
    c as int - '0' as int
  }

  function DigitChar(n: int): (c: char)
    requires 0 <= n <= 9
    ensures IsDigit(c) && DigitValue(c) == n
  {
    ('0' as int + n) as char
  }

  /** `s[i..i+2]` are two decimal digits. */
  predicate TwoDigits(s: string, i: int)
    requires 0 <= i && i + 2 <= |s|
  {
    IsDigit(s[i]) && IsDigit(s[i + 1])
  }

  function Number2(s: string, i: int): (n: int)
    requires 0 <= i && i + 2 <= |s| && TwoDigits(s, i)
    ensures 0 <= n < 100
  {
    10 * DigitValue(s[i]) + DigitValue(s[i + 1])
  }

  function Number4(s: string, i: int): (n: int)
    requires 0 <= i && i + 4 <= |s| && TwoDigits(s, i) && TwoDigits(s, i + 2)
    ensures 0 <= n < 10000
  {
    100 * Number2(s, i) + Number2(s, i + 2)
  }

  /** Zero-padded two-digit decimal, as `%m`, `%d`, `%H`, `%M` and `%S` print. */
  function Pad2(n: int): (s: string)
    requires 0 <= n < 100
    ensures |s| == 2 && TwoDigits(s, 0) && Number2(s, 0) == n
  {
    [DigitChar(n / 10), DigitChar(n % 10)]
  }

  /** Zero-padded four-digit decimal, as `%Y` prints years 1900..9999. */
  function Pad4(n: int): (s: string)
    requires 0 <= n < 10000
    ensures |s| == 4 && TwoDigits(s, 0) && TwoDigits(s, 2) && Number4(s, 0) == n
  {
    var high, low := Pad2(n / 100), Pad2(n % 100);
    [high[0], high[1], low[0], low[1]]
  }

  /** `YYYY-MM-DD?HH:MM:SS` from its fields, with `sep` between date and time. */
  function Layout(yy: string, mo: string, dd: string, sep: char, hh: string, mi: string, ss: string): (s: string)
    requires |yy| == 4 && |mo| == 2 && |dd| == 2 && |hh| == 2 && |mi| == 2 && |ss| == 2
    ensures |s| == StampLength && s[10] == sep
  {
    [yy[0], yy[1], yy[2], yy[3], '-', mo[0], mo[1], '-', dd[0], dd[1], sep,
     hh[0], hh[1], ':', mi[0], mi[1], ':', ss[0], ss[1]]
  }

  /** A 19-character stamp with its date/time separator replaced by `c`. */
  function WithSeparator(s: string, c: char): (r: string)
    requires |s| == StampLength
    ensures |r| == StampLength && r[10] == c
    ensures forall k :: 0 <= k < StampLength && k != 10 ==> r[k] == s[k]
  {
    s[..10] + [c] + s[11..]
  }

  /**
   * The text the pattern `^.*(?=-0[8-9]:00$)` captures: everything before a
   * final `-08:00` or `-09:00`, provided it holds no line break (`.` does not
   * match one).  `None` when the pattern finds nothing.
   */
  function StripOffset(raw: string): (r: Option<string>)
    ensures r.Some? ==> |raw| == |r.value| + OffsetLength && raw[..|r.value|] == r.value
    ensures r.Some? ==> IsOffset(raw[|r.value|..]) && '\n' !in r.value
  {
    if |raw| >= OffsetLength && IsOffset(raw[|raw| - OffsetLength..]) && '\n' !in raw[..|raw| - OffsetLength] then
      Some(raw[..|raw| - OffsetLength])
    else
      None
  }

  /**
   * The layout of `%Y-%m-%dT%H:%M:%S` with every field written in full.
   * `strptime` matches the literal `T` ignoring case.
   */
  predicate StampShape(s: string) {
    && |s| == StampLength
    && TwoDigits(s, 0) && TwoDigits(s, 2) && s[4] == '-'
    && TwoDigits(s, 5) && s[7] == '-'
    && TwoDigits(s, 8) && (s[10] == 'T' || s[10] == 't')
    && TwoDigits(s, 11) && s[13] == ':'
    && TwoDigits(s, 14) && s[16] == ':'
    && TwoDigits(s, 17)
  }

  /** `datetime.strptime(s, '%Y-%m-%dT%H:%M:%S')` on fixed-width input. */
  function Strptime(s: string): (r: Option<DateTime>)
    ensures r.Some? ==> Valid(r.value) && StampShape(s)
  {
    if !StampShape(s) then None
    else
      var dt := DateTime(Number4(s, 0), Number2(s, 5), Number2(s, 8), Number2(s, 11), Number2(s, 14), Number2(s, 17));
      if Valid(dt) then Some(dt) else None
  }

  /** `dateObject(rawDate)`: drop the offset without applying it, then parse. */
  function DateObject(raw: string): (r: Result<DateTime, ParseError>)
    ensures r.Success? ==> Valid(r.value)
    ensures r.Success? ==> |raw| == StampLength + OffsetLength && IsOffset(raw[StampLength..])
  {
    match StripOffset(raw)
    case None => Failure(NoOffsetSuffix)
    case Some(stamp) =>
      match Strptime(stamp)
      case None => Failure(BadFormat)
      case Some(dt) => Success(dt)
  }

  /** The fields of `dt` written out in full as `YYYY-MM-DD?HH:MM:SS`, with `sep` between date and time. */
  function Stamp(dt: DateTime, sep: char): (s: string)
    requires Valid(dt)
    ensures |s| == StampLength && s[10] == sep
  {
    Layout(Pad4(dt.year), Pad2(dt.month), Pad2(dt.day), sep, Pad2(dt.hour), Pad2(dt.minute), Pad2(dt.second))
  }

  /** `formatDate(dateObj)`: `%Y-%m-%d %H:%M:%S`, or the error `strftime` raises before 1900. */
  function FormatDate(dt: DateTime): (r: Result<string, FormatError>)
    requires Valid(dt)
    ensures r.Failure? <==> dt.year < FirstFormattableYear
    ensures r.Success? ==> |r.value| == StampLength && r.value[10] == ' '
  {
    if dt.year < FirstFormattableYear then Failure(YearBefore1900)
    else Success(Stamp(dt, ' '))
  }

  /** Seconds of 1900-01-01T00:00:00, the earliest instant `strftime` will print. */
  const FirstFormattableSecond := 59926608000

  /** Printing a parsed pair of digits gives the same two characters back. */
  lemma Pad2OfDigits(s: string, i: int)
    requires 0 <= i && i + 2 <= |s| && TwoDigits(s, i)
    ensures Pad2(Number2(s, i)) == s[i..i + 2]
  {
    var n := Number2(s, i);
    assert n / 10 == DigitValue(s[i]) && n % 10 == DigitValue(s[i + 1]);
  }

  lemma Pad4OfDigits(s: string, i: int)
    requires 0 <= i && i + 4 <= |s| && TwoDigits(s, i) && TwoDigits(s, i + 2)
    ensures Pad4(Number4(s, i)) == s[i..i + 4]
  {
    var n := Number4(s, i);
    assert n / 100 == Number2(s, i) && n % 100 == Number2(s, i + 2);
    Pad2OfDigits(s, i);
    Pad2OfDigits(s, i + 2);
  }

  /** A stamp of the right shape is the layout of its own fields. */
  lemma LayoutOfStamp(stamp: string, c: char)
    requires StampShape(stamp)
    ensures Layout(stamp[0..4], stamp[5..7], stamp[8..10], c, stamp[11..13], stamp[14..16], stamp[17..19])
            == WithSeparator(stamp, c)
  {
    var l := Layout(stamp[0..4], stamp[5..7], stamp[8..10], c, stamp[11..13], stamp[14..16], stamp[17..19]);
    var r := WithSeparator(stamp, c);
    forall k | 0 <= k < StampLength
      ensures l[k] == r[k]
    {
    }
    assert l == r;
  }

  /**
   * The offset is thrown away, not applied: the same wall-clock text with
   * either Alaska offset parses to the same `datetime`.
   */
  lemma OffsetDiscarded(stamp: string)
    ensures DateObject(stamp + "-08:00") == DateObject(stamp + "-09:00")
  {
    assert (stamp + "-08:00")[..|stamp|] == stamp;
    assert (stamp + "-09:00")[..|stamp|] == stamp;
    assert (stamp + "-08:00")[|stamp|..] == "-08:00";
    assert (stamp + "-09:00")[|stamp|..] == "-09:00";
  }

  /** Without a final `-08:00` or `-09:00` the pattern finds nothing and `dateObject` raises. */
  lemma MissingOffsetFails(raw: string)
    requires |raw| < OffsetLength || !IsOffset(raw[|raw| - OffsetLength..])
    ensures DateObject(raw) == Failure(NoOffsetSuffix)
  {
  }

  /**
   * `strptime` reads the fields the text spells out, for every year: laying
   * the parsed `datetime` out again, with the stamp's own separator, gives
   * back the 19 characters before the offset.
   */
  lemma StampOfParse(raw: string)
    requires DateObject(raw).Success?
    ensures Stamp(DateObject(raw).value, raw[10]) == raw[..StampLength]
  {
    var stamp := StripOffset(raw).value;
    assert stamp == raw[..StampLength];
    Pad4OfDigits(stamp, 0);
    Pad2OfDigits(stamp, 5);
    Pad2OfDigits(stamp, 8);
    Pad2OfDigits(stamp, 11);
    Pad2OfDigits(stamp, 14);
    Pad2OfDigits(stamp, 17);
    LayoutOfStamp(stamp, stamp[10]);
    var same := WithSeparator(stamp, stamp[10]);
    assert same == stamp by {
      forall k | 0 <= k < StampLength
        ensures same[k] == stamp[k]
      {
      }
    }
  }

  /**
   * Parse then print: a timestamp `dateObject` accepts (from 1900 on) prints
   * as its own first 19 characters with the `T` replaced by a space.
   */
  lemma ParseThenFormat(raw: string)
    requires DateObject(raw).Success? && DateObject(raw).value.year >= FirstFormattableYear
    ensures FormatDate(DateObject(raw).value) == Success(WithSeparator(raw[..StampLength], ' '))
  {
    var dt := DateObject(raw).value;
    StampOfParse(raw);
    SeparatorSwap(Pad4(dt.year), Pad2(dt.month), Pad2(dt.day), raw[10], ' ',
                  Pad2(dt.hour), Pad2(dt.minute), Pad2(dt.second));
  }

  /** Replacing the separator of a laid-out stamp lays it out with the new separator. */
  lemma SeparatorSwap(yy: string, mo: string, dd: string, a: char, b: char, hh: string, mi: string, ss: string)
    requires |yy| == 4 && |mo| == 2 && |dd| == 2 && |hh| == 2 && |mi| == 2 && |ss| == 2
    ensures WithSeparator(Layout(yy, mo, dd, a, hh, mi, ss), b) == Layout(yy, mo, dd, b, hh, mi, ss)
  {
    var l := WithSeparator(Layout(yy, mo, dd, a, hh, mi, ss), b);
    var r := Layout(yy, mo, dd, b, hh, mi, ss);
    forall k | 0 <= k < StampLength
      ensures l[k] == r[k]
    {
    }
    assert l == r;
  }

  /** `strptime` reads a laid-out stamp field by field. */
  lemma StrptimeOfLayout(yy: string, mo: string, dd: string, sep: char, hh: string, mi: string, ss: string)
    requires |yy| == 4 && |mo| == 2 && |dd| == 2 && |hh| == 2 && |mi| == 2 && |ss| == 2
    requires TwoDigits(yy, 0) && TwoDigits(yy, 2) && TwoDigits(mo, 0) && TwoDigits(dd, 0)
    requires TwoDigits(hh, 0) && TwoDigits(mi, 0) && TwoDigits(ss, 0)
    requires sep == 'T' || sep == 't'
    requires Valid(DateTime(Number4(yy, 0), Number2(mo, 0), Number2(dd, 0),
                            Number2(hh, 0), Number2(mi, 0), Number2(ss, 0)))
    ensures Strptime(Layout(yy, mo, dd, sep, hh, mi, ss))
            == Some(DateTime(Number4(yy, 0), Number2(mo, 0), Number2(dd, 0),
                             Number2(hh, 0), Number2(mi, 0), Number2(ss, 0)))
  {
    var stamp := Layout(yy, mo, dd, sep, hh, mi, ss);
    assert StampShape(stamp);
    assert Number4(stamp, 0) == Number4(yy, 0);
    assert Number2(stamp, 5) == Number2(mo, 0);
    assert Number2(stamp, 8) == Number2(dd, 0);
    assert Number2(stamp, 11) == Number2(hh, 0);
    assert Number2(stamp, 14) == Number2(mi, 0);
    assert Number2(stamp, 17) == Number2(ss, 0);
  }

  /**
   * Every valid `datetime`, in every year, written as `%Y-%m-%dT%H:%M:%S`
   * (the `T` in either case) with either offset appended, parses to itself.
   */
  lemma ParseStamp(dt: DateTime, sep: char, zone: string)
    requires Valid(dt) && (sep == 'T' || sep == 't') && IsOffset(zone)
    ensures DateObject(Stamp(dt, sep) + zone) == Success(dt)
  {
    var stamp := Stamp(dt, sep);
    var raw := stamp + zone;
    assert raw[..|raw| - OffsetLength] == stamp && raw[|raw| - OffsetLength..] == zone;
    assert '\n' !in stamp by {
      forall k | 0 <= k < StampLength
        ensures stamp[k] != '\n'
      {
      }
    }
    assert StripOffset(raw) == Some(stamp);
    StrptimeOfLayout(Pad4(dt.year), Pad2(dt.month), Pad2(dt.day), sep, Pad2(dt.hour), Pad2(dt.minute), Pad2(dt.second));
  }

  /**
   * Print then parse: the caption text of a `datetime` (from 1900 on), with
   * its space turned back into `T` and either offset appended, parses to the
   * same `datetime`.
   */
  lemma FormatThenParse(dt: DateTime, zone: string)
    requires Valid(dt) && dt.year >= FirstFormattableYear && IsOffset(zone)
    ensures DateObject(WithSeparator(FormatDate(dt).value, 'T') + zone) == Success(dt)
  {
    SeparatorSwap(Pad4(dt.year), Pad2(dt.month), Pad2(dt.day), ' ', 'T',
                  Pad2(dt.hour), Pad2(dt.minute), Pad2(dt.second));
    ParseStamp(dt, 'T', zone);
  }

  /** 1900-01-01T00:00:00 lies `FirstFormattableSecond` seconds after 0001-01-01T00:00:00. */
  lemma FirstFormattableInstant()
    ensures Valid(DateTime(FirstFormattableYear, 1, 1, 0, 0, 0))
    ensures ToSeconds(DateTime(FirstFormattableYear, 1, 1, 0, 0, 0)) == FirstFormattableSecond
  {
    assert DaysBeforeYear(1900) == 365 * 1899 + 474 - 18 + 4;
    assert ToOrdinal(1900, 1, 1) == 693596;
  }

  /** A number of seconds can be printed exactly when it lies at or after 1900-01-01T00:00:00. */
  lemma FormattableSeconds(t: int)
    requires 0 <= t <= MaxSeconds
    ensures FormatDate(FromSeconds(t)).Success? <==> t >= FirstFormattableSecond
  {
    var dt := FromSeconds(t);
    var jan1 := DateTime(FirstFormattableYear, 1, 1, 0, 0, 0);
    FirstFormattableInstant();
    SecondsOrder(dt, jan1);
    assert Before(dt, jan1) <==> dt.year < FirstFormattableYear;
  }
}

=== FILE: wrappers.dfy ===
/** Failure-carrying values shared by the timestamp helpers and the matcher. */
module Wrappers {

  /** An optional value: `None` stands for Python's `None` or an absent match. */
  datatype Option<+T> = None | Some(value: T)

  /** The value of a computation that either succeeds or raises. */
  datatype Result<+T, +E> = Success(value: T) | Failure(error: E)
}
